=== FILE: README.md ===
# FitTrack data core in Dafny

FitTrack is a browser fitness tracker. The user logs activities: a number of
steps, a workout or burned calories, each on a calendar date with optional
notes. The app shows daily and weekly totals against goals. It draws 7-day and
30-day charts, lists insights and exports a CSV report. This project models
the pure data layer under the DOM and chart code of `script.js`.

- **`seqs.dfy` (`Seqs`)**: order-preserving filtering (`Array.prototype.filter`), counting and the subsequence relation. Every query is built from these.
- **`number_format.dfy` (`NumberFormat`)**:
  - `formatNumber`: the decimal form of a count with a comma between groups of three digits;
  - the decimal text and its parser, which serves as the partner for the round trip.
- **`activities.dfy` (`Activities`)**:
  - the `Activity`, `Draft` and `Goals` records;
  - the three edits of the in-memory list: update by id, append under a fresh id, delete by id;
  - the submit dispatch between update and append.
- **`queries.dfy` (`Queries`)**:
  - `getFilteredActivities` and `calculateTotal`;
  - the Monday of the current week (`getWeekStart`) and the weekly workout count;
  - the clamped goal percentage of the progress ring and the goal bars.
- **`series.dfy` (`Series`)**: the values of `getLast7DaysData` and `getLast30DaysData`, one sum per day, oldest first.
- **`insights.dfy` (`Insights`)**: the four rules of `updateInsights`, in their order, without the rendering.
- **`report.dfy` (`Report`)**: the CSV text of `exportReport`:
  - the sort by date;
  - the `YYYY-MM-DD` date text;
  - the rows with commas in the notes turned into semicolons.

Dates are integer day numbers, with day 0 being 1970-01-01. `today` and `now`
are parameters. The fresh id of a new record is also a parameter. The weekday
is computed from the day number as `Date.prototype.getDay` numbers it, so
0 is Sunday.

The model keeps three quirks of the code:

- **No upper bound on dates.**
  - The date filter of `getFilteredActivities` (script.js:76) keeps every record dated on or after the cutoff. It has no upper bound.
  - `calculateWorkoutsThisWeek` (script.js:197) counts from the Monday the same way.
  - So `calculateTotal(type, 0)` also counts records dated after today, and the weekly count also counts workouts dated after this week.
  - `Queries.WorkoutsCountNoUpperBound` and `Series.TodayTotalCountsFuture` state this.
  - `Series.TodayTotal` and `Series.TrailingSumIsTotal` state the condition under which these totals are exactly the totals of the days they name: nothing dated after today.
- **Unguarded goal division.**
  - The percentage divides by the goal without a guard (script.js:206, script.js:746).
  - With a goal of 0, any positive progress gives `Infinity`, and `Math.min(Infinity, 100)` shows 100%. Only zero progress gives `NaN` (0/0).
  - The model requires a positive goal, so it excludes an input the program answers with 100.
- **Unknown id.** An update or delete whose id is unknown changes nothing and reports nothing (script.js:527, script.js:668).

## Model

| member | source | states |
|---|---|---|
| NumberFormat.FormatNumber | script.js:49-51 | The result is digit groups joined by single commas: the first group has 1 to 3 digits and every later group exactly 3. Deleting the commas gives the decimal form of `n`. The result is the plain decimal form exactly when `n < 1000`. |
| NumberFormat.FormatNumberRoundTrip | script.js:49-51 | Removing the commas from the formatted number and reading the digits gives back `n`. |
| NumberFormat.DecimalRoundTrip | script.js:50 | The decimal text of a non-negative integer parses back to that integer. |
| NumberFormat.DecimalLength | script.js:50 | A number has at most three decimal digits exactly when it is below 1000, so below 1000 the separator regex inserts nothing. |
| NumberFormat.GroupWellGrouped | script.js:50 | The comma-insertion regex, applied to any non-empty digit string, gives well-formed groups. Deleting the commas gives the string back. It adds one comma for every full group of three after the first. |
| Activities.FindIndex | script.js:526 | The result is the first position holding the id. It is none exactly when no record has the id. |
| Activities.UpdateActivity | script.js:524-536 | Length is unchanged. The record at the first index with the id becomes the form's fields with `updatedAt` and without `createdAt`. Every other record is unchanged. An absent id leaves the list as it was. |
| Activities.UpdateUnique | script.js:526-535 | When ids are distinct, an update replaces exactly the one record carrying the id. |
| Activities.UpdateKeepsUniqueIds | script.js:528-535 | An update keeps the id it replaces, so distinct ids stay distinct. |
| Activities.AddActivity | script.js:538-546 | The list grows by exactly one. The old records form an unchanged prefix. The last record is the new one, with `createdAt` and without `updatedAt`. |
| Activities.AddKeepsUniqueIds | script.js:538-546 | Appending under an id not yet in use keeps ids distinct. |
| Activities.DeleteActivity | script.js:668 | The result is an order-preserving subsequence with no record carrying the id. Every record without the id is kept. The length drops by the number of records with the id. An unknown id leaves the list unchanged. |
| Activities.DeleteIsDetermined | script.js:668 | Those three properties together determine the result: any list that has them is the one `filter` returns. |
| Activities.DeleteKeepsUniqueIds | script.js:668 | Deleting keeps ids distinct. |
| Activities.DeleteUndoesAdd | script.js:538-546 | Deleting a record just appended under a fresh id restores the original list. |
| Activities.Submit | script.js:524-547 | An empty form id appends a created record. A non-empty one edits in place: the length is unchanged, the first record with the id becomes the edited record and every other record is kept; an unknown id changes nothing. |
| Queries.FilterActivitiesIsSelection | script.js:63-80 | The type filter followed by the date filter is one order-preserving selection of exactly the matching records. |
| Queries.FilterActivitiesSpec | script.js:63-80 | The result is a subsequence of the activities. A record is in it exactly when it is in the list, matches the type (any type for `'all'`) and is dated on or after `today - daysBack`. Its length is the number of matching records. |
| Queries.FilterAllTypesIsIdentity | script.js:63-69 | `'all'` with no date range returns the list unchanged. |
| Queries.TotalSpec | script.js:85-88 | `calculateTotal` is the sum of `value` over exactly the matching records, and 0 when nothing matches. |
| Queries.WeekStartOffset | script.js:39 | The offset is -6 exactly for Sunday and otherwise lies in -5..0. Adding it to the weekday lands on Monday. |
| Queries.WeekStart | script.js:36-44 | The week start is a Monday 0 to 6 days before today, with no Monday between it and today. |
| Queries.SameWeek | script.js:36-44 | Every day from that Monday to the next Sunday has the same week start. |
| Queries.WorkoutsThisWeek | script.js:194-200 | The weekly count is at most the number of workout records. |
| Queries.WorkoutsThisWeekSpec | script.js:194-200 | The weekly count is the number of workout records dated on or after this week's Monday. |
| Queries.WorkoutsSameWeek | script.js:194-200 | The count is the same on every day of one week. |
| Queries.WorkoutsCountNoUpperBound | script.js:197 | A workout dated on or after the Monday, even after today, adds one to the count. One dated before the Monday adds nothing. |
| Queries.GoalPercentage | script.js:206 | With a positive goal, the percentage never exceeds 100. It equals 100 exactly when `current >= goal`; below the goal it is exactly `current / goal * 100`. It is non-negative for non-negative progress. |
| Queries.GoalPercentageMonotone | script.js:746 | More progress never gives a smaller percentage. |
| Series.BucketIsDayTotal | script.js:298-300 | One bucket is computed as records of the day, then of one type, then summed. That equals the sum of `value` over the records of that type dated that day, and 0 when there are none. |
| Series.Trailing | script.js:288-304 | There are exactly `n` buckets, oldest first. Entry `i` is the day total for `today - (n - 1 - i)`. |
| Series.Last7Days | script.js:283-307 | Both series have exactly 7 entries. Entry `i` holds the step and calorie totals of day `today - 6 + i`. |
| Series.Last30Days | script.js:865-889 | Both series have exactly 30 entries. Entry `i` holds the step and calorie totals of day `today - 29 + i`. |
| Series.TrailingSum | script.js:288-304 | The `n` buckets add up to the total of that type over the `n` days ending today. |
| Series.SevenDayStepsSum | script.js:283-307 | The 7-day step series adds up to the step total over exactly those 7 dates. |
| Series.TrailingSumIsTotal | script.js:85-88 | With nothing of the type dated after today, the `n` buckets add up to `calculateTotal(type, n - 1)`. |
| Series.TodayTotal | script.js:85-88 | With nothing of the type dated after today, `calculateTotal(type, 0)` is the total of the records dated today. |
| Series.TodayTotalCountsFuture | script.js:72-77 | A record dated after today is added to `calculateTotal(type, 0)`. |
| Insights.Insights | script.js:894-937 | At most four insights, in the fixed rule order: steps goal, workout goal, consistency, reminder. The steps insight is present exactly when today's steps reach the daily goal. The workout insight is present exactly when this week's workouts reach the weekly goal. The consistency insight is present exactly when at least 5 of the 7 step buckets are positive. The reminder is present exactly when the list is non-empty and both today's steps and this week's workouts are 0. Nothing else appears. |
| Insights.TrailingActiveDays | script.js:919-920 | Counting the positive buckets of a trailing series counts exactly the days of its window whose total is positive, as given by an independent day-by-day count. |
| Insights.WeekActiveDaysSpec | script.js:919-920 | The consistency figure is the number of the last seven days, today included, with a positive step total; hence at most 7. |
| Insights.ReminderExcludesGoals | script.js:897-936 | With positive goals, the reminder never appears together with either goal insight. |
| Insights.NoReminderWithoutActivities | script.js:930 | An empty activity list never draws the reminder. |
| Insights.DailyStepsExample | script.js:898-906 | Two step records of 5000 and 6000 today against a goal of 10000 give a total of 11000, a full progress ring and the steps insight. |
| Report.SortByDate | script.js:985 | The sorted list is in non-decreasing date order and is a permutation of the activities. |
| Report.SortIsStable | script.js:985 | Records sharing a date keep their original relative order. |
| Report.ReplaceCommas | script.js:988 | The notes keep their length. Every comma becomes `;` and every other character is kept. |
| Report.NotesHaveNoComma | script.js:988 | The rewritten notes contain no comma. |
| Report.RowShape | script.js:989 | Every row has exactly three commas, so it splits into the header's four columns whatever the notes hold. With notes free of quotes it has exactly two quotes. Every row ends in a line break, and with notes free of line breaks that is its only one. |
| Report.RowFields | script.js:988-989 | Splitting a row on commas gives back exactly four pieces: the date, the type name, the value and the quoted notes with commas replaced, ending in the line break. |
| Report.RowSplits | script.js:988-989 | For any date, type and value texts free of commas, and any notes, the joined row splits on commas into exactly those three texts and the quoted notes. |
| Report.EmptyNotesRow | script.js:988-989 | A record without notes gets the empty quoted field `""`. |
| Report.ExportCsv | script.js:980-990 | The text starts with the header `Date,Type,Value,Notes` and a line break. It continues with the rows of a date-ordered permutation of the activities, in which the records of each date keep their stored order. |
| Report.ExportLines | script.js:982-990 | When no notes contain a line break, the report has exactly one line for the header and one per activity. |
| Report.ExportExample | script.js:980-990 | One steps record of 500 on 2024-01-02 with notes `a,b` exports as the header followed by `2024-01-02,steps,500,"a;b"`. |
| Report.IsoDateExample | script.js:28-31 | Day 19724 is written `2024-01-02`. |

## Left out

- **DOM and UI.**
  - Form reading and validation, `confirm`, button feedback and the Blob download link are UI and I/O.
  - `Draft` stands for an already validated form.
  - The CSV text is modelled; the download is not.
- **Charts and rendering.**
  - Chart.js construction, theme colours, chart labels and the HTML of the activity list and the insights are presentation.
  - Each `Insight` keeps only the figure its text quotes.
- **Storage.**
  - Persistence to `localStorage` and the JSON round trip are storage and serialisation outside the data layer.
  - The default goals used when nothing is stored are left out too.
- **Ids and clocks.**
  - `generateId` uses the clock and `Math.random`, so the fresh id is a parameter.
  - `new Date().toISOString()` is the `now` parameter, and the current date is the `today` parameter.
- **JavaScript dates.**
  - UTC-versus-local parsing of `YYYY-MM-DD`, `toISOString` day rollover, `setHours` and `toLocaleDateString` are not modelled.
  - Dates are day numbers and every comparison is on day numbers. This matches the code only at UTC offsets of zero or more.
  - West of UTC, `new Date('YYYY-MM-DD')` is UTC midnight. That falls before the local-midnight cutoff (script.js:73-76) and before the local Monday (script.js:41-42, script.js:197).
  - There the code drops records dated on the cutoff day itself: `calculateTotal(type, 0)` leaves out records dated today, and the weekly count leaves out workouts dated on the Monday.
  - The series take each day's text from `toISOString` of the current local time moved back by whole days (script.js:289-291). That names the UTC day, which differs from the local day for as many hours each day as the UTC offset. At UTC−5, from 19:00 local time every bucket is labelled with the following day.
  - Dates that do not parse (`NaN` comparisons) are not modelled.
- **Display rounding.** `Math.round` of the percentage and the `163.36` ring circumference are floating-point display details.
- **Other views.** `update7DaySummary`, the distribution chart counts and the goal forms are outside the modelled core.
- **Activities.AddActivity, Activities.UpdateActivity, Activities.DeleteActivity:**
  - These state the array edits themselves.
  - After every submit (script.js:551) and delete (script.js:670), `renderActivitiesList` sorts the shared `activities` array in place, newest first, when its filter is `'all'` (script.js:565-570). That rewrites the stored order; the newest-first sort is not modelled.
  - Totals, counts, series and insights ignore that order. The CSV does not: its sort by date is stable, so rows sharing a date come out in stored order.
  - The stored order therefore differs between the model and the program once the newest-first sort has run. It also depends on the state of the list filter, since the sort only runs under `'all'`.
  - Example: add R on day 1, then S on day 2. The program stores [S, R] and the model [R, S]. Editing R to day 2 keeps each record at its index (script.js:528). The program then exports S's row before R's, and `Report.ExportCsv` exports R's first.
- **Number types.**
  - Values are unbounded integers. JavaScript numbers are doubles, so sums beyond 2^53 lose precision there and not here.
- **NumberFormat.FormatNumber:**
  - It takes a `nat`. Negative numbers, fractions and numbers from 10^21 up, which `toString` writes in exponent form, are not modelled.
- **Queries.GoalPercentage:**
  - It requires a positive goal. The source divides without a guard (script.js:206, script.js:746). With a goal of 0 it answers 100 for any positive progress, since `Math.min(Infinity, 100)` is 100, and `NaN` for zero progress. The requirement excludes those inputs.
- **Report.IsoDate:**
  - The export writes the stored date text (script.js:989), which is the form's date value (script.js:521).
  - The model writes it from the day number. Only years 0000 to 9999 come out as the program stores them.
  - The signed six-digit form used outside that range is an extension of the model.
- **Report.CivilFromDays:**
  - Only the month and day ranges are stated. That it inverts the days-from-civil count is not proved.
- **Report.ExportCsv:**
  - Quotes and line breaks inside notes are written unescaped, as the source writes them.
  - The line count is therefore stated only for notes without line breaks.

=== FILE: activities.dfy ===
/** The tracker's records and the edits the activity form and the delete
    button make to the in-memory list of activities. */
module Activities {
  import opened Seqs

  datatype Option<T> = None | Some(value: T)

  datatype ActivityType = Steps | Workout | Calories

  /** A calendar day, counted from 1970-01-01 (day 0). */
  type Day = int

  /** An instant as recorded in `createdAt` / `updatedAt`. */
  type Timestamp = int

  /** One logged activity. An empty `notes` stands for missing notes. */
  datatype Activity = Activity(
    id: string,
    kind: ActivityType,
    value: int,
    date: Day,
    notes: string,
    createdAt: Option<Timestamp>,
    updatedAt: Option<Timestamp>)

  /** The validated fields of one submission of the activity form. */
  datatype Draft = Draft(kind: ActivityType, value: int, date: Day, notes: string)

  /** The user's three numeric targets. */
  datatype Goals = Goals(dailySteps: int, weeklyWorkouts: int, dailyCalories: int)

  /** The record that replaces an edited one: it carries `updatedAt` and
      no `createdAt`. */
  function Edited(id: string, d: Draft, now: Timestamp): Activity {
    Activity(id, d.kind, d.value, d.date, d.notes, None, Some(now))
  }

  /** The record appended for a new submission. */
  function Created(id: string, d: Draft, now: Timestamp): Activity {
    Activity(id, d.kind, d.value, d.date, d.notes, Some(now), None)
  }

  predicate HasId(acts: seq<Activity>, id: string) {
    exists i :: 0 <= i < |acts| && acts[i].id == id
  }

  /** `i` is the first position holding a record with `id`. */
  predicate IsFirstWithId(acts: seq<Activity>, id: string, i: int) {
    && 0 <= i < |acts|
    && acts[i].id == id
    && forall j :: 0 <= j < i ==> acts[j].id != id
  }

  /** Ids are pairwise distinct. */
  predicate UniqueIds(acts: seq<Activity>) {
    forall i, j :: 0 <= i < j < |acts| ==> acts[i].id != acts[j].id
  }

  /** `findIndex(a => a.id === id)`, with `None` for -1. */
  function FindIndex(acts: seq<Activity>, id: string): (r: Option<nat>)
    ensures r.Some? ==> IsFirstWithId(acts, id, r.value)
    ensures r.None? <==> !HasId(acts, id)
  {
    if acts == [] then None
    else if acts[0].id == id then Some(0)
    else match FindIndex(acts[1..], id)
      case None => None
      case Some(i) => Some(i + 1)
  }

  /** Editing an existing activity: the first record with `id` is replaced
      whole by the form's fields; an unknown id changes nothing. */
  function UpdateActivity(acts: seq<Activity>, id: string, d: Draft, now: Timestamp): (r: seq<Activity>)
    ensures |r| == |acts|
    ensures forall i :: 0 <= i < |acts| ==>
      r[i] == (if IsFirstWithId(acts, id, i) then Edited(id, d, now) else acts[i])
    ensures !HasId(acts, id) ==> r == acts
  {
    match FindIndex(acts, id)
    case None => acts
    case Some(i) => acts[i := Edited(id, d, now)]
  }

  /** Adding a new activity under the freshly generated id `freshId`. */
  function AddActivity(acts: seq<Activity>, d: Draft, freshId: string, now: Timestamp): (r: seq<Activity>)
    ensures |r| == |acts| + 1
    ensures r[..|acts|] == acts
    ensures r[|acts|] == Created(freshId, d, now)
  {
    acts + [Created(freshId, d, now)]
  }

  predicate IdIsNot(id: string, a: Activity) {
    a.id != id
  }

  function IdIs(id: string): Activity -> bool {
    (a: Activity) => a.id == id
  }

  /** Deleting every record with `id`. */
  function DeleteActivity(acts: seq<Activity>, id: string): (r: seq<Activity>)
    ensures IsSubseq(r, acts)
    ensures forall i :: 0 <= i < |r| ==> r[i].id != id
    ensures forall a :: a in acts && a.id != id ==> a in r
    ensures |r| == |acts| - Count(acts, IdIs(id))
    ensures !HasId(acts, id) ==> r == acts
  {
    var keep := (a: Activity) => IdIsNot(id, a);
    FilterIsSubseq(acts, keep);
    FilterMembers(acts, keep);
    CountComplement(acts, keep, IdIs(id));
    assert !HasId(acts, id) ==> Filter(acts, keep) == acts by {
      if !HasId(acts, id) {
        FilterAll(acts, keep);
      }
    }
    Filter(acts, keep)
  }

  /** The contract of `DeleteActivity` leaves no freedom: the only
      subsequence without the id and of that length is the filter result. */
  lemma {:induction false} DeleteIsDetermined(acts: seq<Activity>, id: string, r: seq<Activity>)
    requires IsSubseq(r, acts)
    requires forall i :: 0 <= i < |r| ==> r[i].id != id
    requires |r| == |acts| - Count(acts, IdIs(id))
    ensures r == DeleteActivity(acts, id)
  {
    var keep := (a: Activity) => IdIsNot(id, a);
    CountComplement(acts, keep, IdIs(id));
    FilterUnique(r, acts, keep);
  }

  /** `handleActivitySubmit` once the form is valid: a non-empty id in the
      form edits, an empty one adds. */
  function Submit(acts: seq<Activity>, formId: string, d: Draft, freshId: string, now: Timestamp): (r: seq<Activity>)
    ensures formId == "" ==> r == acts + [Created(freshId, d, now)]
    ensures formId != "" ==> |r| == |acts|
    ensures formId != "" ==> forall i :: 0 <= i < |acts| ==>
      r[i] == (if IsFirstWithId(acts, formId, i) then Edited(formId, d, now) else acts[i])
    ensures formId != "" && !HasId(acts, formId) ==> r == acts
  {
    if formId != "" then UpdateActivity(acts, formId, d, now)
    else AddActivity(acts, d, freshId, now)
  }

  /** With distinct ids, an edit replaces the one record that has the id. */
  lemma UpdateUnique(acts: seq<Activity>, id: string, d: Draft, now: Timestamp, k: int)
    requires UniqueIds(acts)
    requires 0 <= k < |acts| && acts[k].id == id
    ensures UpdateActivity(acts, id, d, now) == acts[k := Edited(id, d, now)]
  {
    assert IsFirstWithId(acts, id, k);
  }

  /** Adding under an id not yet in use keeps ids distinct. */
  lemma AddKeepsUniqueIds(acts: seq<Activity>, d: Draft, freshId: string, now: Timestamp)
    requires UniqueIds(acts)
    requires !HasId(acts, freshId)
    ensures UniqueIds(AddActivity(acts, d, freshId, now))
  {
  }

  /** An edit keeps the id it replaces, so ids stay distinct. */
  lemma UpdateKeepsUniqueIds(acts: seq<Activity>, id: string, d: Draft, now: Timestamp)
    requires UniqueIds(acts)
    ensures UniqueIds(UpdateActivity(acts, id, d, now))
  {
    var r := UpdateActivity(acts, id, d, now);
    assert forall i :: 0 <= i < |r| ==> r[i].id == acts[i].id;
  }

  /** Deleting keeps ids distinct: the result is a subsequence. */
  lemma DeleteKeepsUniqueIds(acts: seq<Activity>, id: string)
    requires UniqueIds(acts)
    ensures UniqueIds(DeleteActivity(acts, id))
  {
    SubseqUniqueIds(DeleteActivity(acts, id), acts);
  }

  lemma {:induction false} SubseqUniqueIds(a: seq<Activity>, b: seq<Activity>)
    requires IsSubseq(a, b) && UniqueIds(b)
    ensures UniqueIds(a)
    decreases |b|
  {
    if a != [] {
      if a[0] == b[0] {
        SubseqUniqueIds(a[1..], b[1..]);
        SubseqMembers(a[1..], b[1..]);
        forall j | 0 < j < |a|
          ensures a[0].id != a[j].id
        {
          assert a[j] == a[1..][j - 1];
          assert a[j] in a[1..];
          var k :| 0 <= k < |b[1..]| && b[1..][k] == a[j];
          assert b[k + 1] == a[j];
        }
      } else {
        SubseqUniqueIds(a, b[1..]);
      }
    }
  }

  /** Deleting a just-added record under a fresh id restores the list. */
  lemma DeleteUndoesAdd(acts: seq<Activity>, d: Draft, freshId: string, now: Timestamp)
    requires !HasId(acts, freshId)
    ensures DeleteActivity(AddActivity(acts, d, freshId, now), freshId) == acts
  {
    var keep := (a: Activity) => IdIsNot(freshId, a);
    FilterAppend(acts, [Created(freshId, d, now)], keep);
    FilterAll(acts, keep);
  }
}

=== FILE: insights.dfy ===
/** The rule list of the reports view: each rule that holds contributes one
    insight, in a fixed order. Titles, texts and icons are presentation and
    are not part of the model; each insight keeps the figure its text quotes. */
module Insights {
  import opened Seqs
  import opened Activities
  import opened Queries
  import opened Series

  datatype Insight =
    | StepsGoalReached(steps: int)
    | WorkoutGoalReached(workouts: int)
    | Consistent(activeDays: nat)
    | TimeToMove

  /** Position of each rule in the evaluation order. */
  function Rank(i: Insight): nat {
    match i
    case StepsGoalReached(_) => 0
    case WorkoutGoalReached(_) => 1
    case Consistent(_) => 2
    case TimeToMove => 3
  }

  function IsPositive(x: int): bool {
    x > 0
  }

  /** Days of a series with a positive value, the `filter(s => s > 0).length`. */
  function ActiveDays(series: seq<int>): (n: nat)
    ensures n <= |series|
  {
    Count(series, IsPositive)
  }

  /** `calculateTotal('steps', 0)`. */
  function TodaySteps(acts: seq<Activity>, today: Day): int {
    Total(acts, OnlyType(Steps), Some(0), today)
  }

  function WeekActiveDays(acts: seq<Activity>, today: Day): nat {
    ActiveDays(Last7Days(acts, today).steps)
  }

  /** The contribution of one rule: its insight when it holds. */
  function Emit(holds: bool, x: Insight): seq<Insight> {
    if holds then [x] else []
  }

  /** Insights appear in strictly increasing rank: fixed order, no repeats. */
  predicate InRuleOrder(r: seq<Insight>) {
    forall i, j :: 0 <= i < j < |r| ==> Rank(r[i]) < Rank(r[j])
  }

  lemma InRuleOrderAppend(a: seq<Insight>, b: seq<Insight>)
    requires InRuleOrder(a) && InRuleOrder(b)
    requires forall x, y :: x in a && y in b ==> Rank(x) < Rank(y)
    ensures InRuleOrder(a + b)
  {
    var ab := a + b;
    forall i, j | 0 <= i < j < |ab|
      ensures Rank(ab[i]) < Rank(ab[j])
    {
      if i < |a| && j >= |a| {
        assert ab[i] in a && ab[j] == b[j - |a|];
      } else if i >= |a| {
        assert ab[i] == b[i - |a|] && ab[j] == b[j - |a|];
      }
    }
  }

  /** Four rules of increasing rank, each contributing when it holds, give
      an insight list in rule order. */
  lemma EmitInOrder(c0: bool, x0: Insight, c1: bool, x1: Insight, c2: bool, x2: Insight, c3: bool, x3: Insight)
    requires Rank(x0) == 0 && Rank(x1) == 1 && Rank(x2) == 2 && Rank(x3) == 3
    ensures |Emit(c0, x0) + Emit(c1, x1) + Emit(c2, x2) + Emit(c3, x3)| <= 4
    ensures InRuleOrder(Emit(c0, x0) + Emit(c1, x1) + Emit(c2, x2) + Emit(c3, x3))
  {
    var e0, e1, e2, e3 := Emit(c0, x0), Emit(c1, x1), Emit(c2, x2), Emit(c3, x3);
    InRuleOrderAppend(e0, e1);
    InRuleOrderAppend(e0 + e1, e2);
    InRuleOrderAppend(e0 + e1 + e2, e3);
  }

  /** Each rule's insight is present exactly when the rule holds, and
      nothing else is. */
  lemma EmitMembers(c0: bool, x0: Insight, c1: bool, x1: Insight, c2: bool, x2: Insight, c3: bool, x3: Insight)
    requires Rank(x0) == 0 && Rank(x1) == 1 && Rank(x2) == 2 && Rank(x3) == 3
    ensures var r := Emit(c0, x0) + Emit(c1, x1) + Emit(c2, x2) + Emit(c3, x3);
      && (x0 in r <==> c0) && (x1 in r <==> c1) && (x2 in r <==> c2) && (x3 in r <==> c3)
      && (forall x :: x in r ==> x in [x0, x1, x2, x3])
  {
    var e0, e1, e2, e3 := Emit(c0, x0), Emit(c1, x1), Emit(c2, x2), Emit(c3, x3);
    var r := e0 + e1 + e2 + e3;
    assert forall x :: x in r <==> x in e0 || x in e1 || x in e2 || x in e3;
    assert x0 != x1 && x0 != x2 && x0 != x3 && x1 != x2 && x1 != x3 && x2 != x3;
  }

  /** `updateInsights` without the rendering. */
  function Insights(acts: seq<Activity>, goals: Goals, today: Day): (r: seq<Insight>)
    ensures |r| <= 4
    ensures InRuleOrder(r)
    ensures StepsGoalReached(TodaySteps(acts, today)) in r <==> TodaySteps(acts, today) >= goals.dailySteps
    ensures WorkoutGoalReached(WorkoutsThisWeek(acts, today)) in r <==> WorkoutsThisWeek(acts, today) >= goals.weeklyWorkouts
    ensures Consistent(WeekActiveDays(acts, today)) in r <==> WeekActiveDays(acts, today) >= 5
    ensures TimeToMove in r <==> |acts| > 0 && TodaySteps(acts, today) == 0 && WorkoutsThisWeek(acts, today) == 0
    ensures forall x :: x in r ==>
      x in [StepsGoalReached(TodaySteps(acts, today)), WorkoutGoalReached(WorkoutsThisWeek(acts, today)),
            Consistent(WeekActiveDays(acts, today)), TimeToMove]
  {
    var todaySteps := TodaySteps(acts, today);
    var weekWorkouts := WorkoutsThisWeek(acts, today);
    var activeDays := WeekActiveDays(acts, today);
    var stepsRule := todaySteps >= goals.dailySteps;
    var workoutRule := weekWorkouts >= goals.weeklyWorkouts;
    var consistencyRule := activeDays >= 5;
    var reminderRule := |acts| > 0 && todaySteps == 0 && weekWorkouts == 0;
    EmitInOrder(stepsRule, StepsGoalReached(todaySteps), workoutRule, WorkoutGoalReached(weekWorkouts),
      consistencyRule, Consistent(activeDays), reminderRule, TimeToMove);
    EmitMembers(stepsRule, StepsGoalReached(todaySteps), workoutRule, WorkoutGoalReached(weekWorkouts),
      consistencyRule, Consistent(activeDays), reminderRule, TimeToMove);
    Emit(stepsRule, StepsGoalReached(todaySteps))
    + Emit(workoutRule, WorkoutGoalReached(weekWorkouts))
    + Emit(consistencyRule, Consistent(activeDays))
    + Emit(reminderRule, TimeToMove)
  }

  /** Reference count of active days: among the `n` days ending with
      `last`, those whose total of type `k` is positive. */
  function ActiveDaysIn(acts: seq<Activity>, k: ActivityType, last: Day, n: nat): (c: nat)
    ensures c <= n
    decreases n
  {
    if n == 0 then 0
    else ActiveDaysIn(acts, k, last - 1, n - 1) + (if DayTotal(acts, k, last) > 0 then 1 else 0)
  }

  /** Counting the positive buckets of a trailing series counts exactly
      the days of its window with a positive total. */
  lemma {:induction false} TrailingActiveDays(acts: seq<Activity>, k: ActivityType, today: Day, n: nat)
    ensures ActiveDays(Trailing(acts, k, today, n)) == ActiveDaysIn(acts, k, today, n)
    decreases n
  {
    if n > 0 {
      var r := Trailing(acts, k, today, n);
      var older := Trailing(acts, k, today - 1, n - 1);
      assert r[..n - 1] == older;
      SplitLast(r);
      TrailingActiveDays(acts, k, today - 1, n - 1);
      CountAppend(older, [r[n - 1]], IsPositive);
      assert r[n - 1] == DayTotal(acts, k, today);
      assert Count([r[n - 1]], IsPositive) == (if IsPositive(r[n - 1]) then 1 else 0) by {
        assert [r[n - 1]][1..] == [];
      }
    }
  }

  /** The consistency figure is the number of the last seven days, today
      included, with a positive step total. */
  lemma WeekActiveDaysSpec(acts: seq<Activity>, today: Day)
    ensures WeekActiveDays(acts, today) == ActiveDaysIn(acts, Steps, today, 7)
    ensures WeekActiveDays(acts, today) <= 7
  {
    TrailingActiveDays(acts, Steps, today, 7);
  }

  /** With positive goals the reminder never appears beside either goal
      success: it needs zero steps today and zero workouts this week. */
  lemma ReminderExcludesGoals(acts: seq<Activity>, goals: Goals, today: Day)
    requires goals.dailySteps > 0 && goals.weeklyWorkouts > 0
    ensures TimeToMove in Insights(acts, goals, today) ==>
      forall x :: x in Insights(acts, goals, today) ==> !x.StepsGoalReached? && !x.WorkoutGoalReached?
  {
  }

  /** An empty activity list never draws the reminder. */
  lemma NoReminderWithoutActivities(goals: Goals, today: Day)
    ensures TimeToMove !in Insights([], goals, today)
  {
  }

  /** Two step records of 5000 and 6000 for today against a goal of 10000:
      the day's total is 11000, the progress is full and the steps insight
      is shown. */
  lemma DailyStepsExample(today: Day, acts: seq<Activity>)
    requires acts == [Activity("a", Steps, 5000, today, "", None, None), Activity("b", Steps, 6000, today, "", None, None)]
    ensures TodaySteps(acts, today) == 11000
    ensures GoalPercentage(TodaySteps(acts, today), 10000) == 100.0
    ensures StepsGoalReached(11000) in Insights(acts, Goals(10000, 5, 500), today)
  {
    TotalSpec(acts, OnlyType(Steps), Some(0), today);
    var sel := Selector(OnlyType(Steps), Some(0), today);
    assert Selected(OnlyType(Steps), Some(0), today, acts[0]);
    assert Selected(OnlyType(Steps), Some(0), today, acts[1]);
    assert acts[1..][1..] == [];
    assert SumWhere(acts[1..], sel) == 6000;
    assert SumWhere(acts, sel) == 5000 + SumWhere(acts[1..], sel);
    assert TodaySteps(acts, today) == 11000;
  }
}

=== FILE: number_format.dfy ===
/** Decimal rendering of counts for display: `toString` on a non-negative
    integer, and the thousands separator that `formatNumber` inserts. */
module NumberFormat {
  import opened Seqs

  predicate IsDigit(c: char) {
    '0' <= c <= '9'
  }

  predicate AllDigits(s: string) {
    forall i :: 0 <= i < |s| ==> IsDigit(s[i])
  }

  function DigitChar(d: nat): (c: char)
    requires d < 10
    ensures IsDigit(c)
  {
    "0123456789"[d]
  }

  function DigitValue(c: char): (d: nat)
    requires IsDigit(c)
    ensures d < 10
  {
    c as int - '0' as int
  }

  /** The decimal form of `n`, most significant digit first, as JavaScript's
      `Number.prototype.toString` writes a non-negative integer. */
  function Decimal(n: nat): (s: string)
    ensures |s| >= 1
    ensures AllDigits(s)
    ensures s[0] == '0' ==> n == 0
  {
    if n < 10 then [DigitChar(n)] else Decimal(n / 10) + [DigitChar(n % 10)]
  }

  /** Reads a string of decimal digits back as a number. */
  function ParseDecimal(s: string): nat
    requires AllDigits(s)
  {
    if s == [] then 0 else ParseDecimal(s[..|s| - 1]) * 10 + DigitValue(s[|s| - 1])
  }

  /** `Decimal` loses nothing: parsing its output gives the number back. */
  lemma {:induction false} DecimalRoundTrip(n: nat)
    ensures ParseDecimal(Decimal(n)) == n
  {
    var s := Decimal(n);
    if n >= 10 {
      DecimalRoundTrip(n / 10);
      assert s[..|s| - 1] == Decimal(n / 10);
    }
  }

  /** Numbers below 1000 have at most three digits, larger ones at least four. */
  lemma DecimalLength(n: nat)
    ensures n < 1000 <==> |Decimal(n)| <= 3
  {
    if n >= 10 {
      assert |Decimal(n)| == |Decimal(n / 10)| + 1;
      if n >= 100 {
        assert |Decimal(n / 10)| == |Decimal(n / 10 / 10)| + 1;
        if n >= 1000 {
          assert |Decimal(n / 10 / 10)| == |Decimal(n / 10 / 10 / 10)| + 1;
        }
      }
    }
  }

  /** Digit groups of three counted from the right, joined by commas: the
      effect of replacing every non-boundary position followed by a multiple
      of three digits up to the end with a comma. */
  function Group(s: string): string
  {
    if |s| <= 3 then s else Group(s[..|s| - 3]) + "," + s[|s| - 3..]
  }

  predicate NotComma(c: char) {
    c != ','
  }

  function StripCommas(s: string): string {
    Filter(s, NotComma)
  }

  /** `r` is digit groups separated by single commas: its first group has
      one to three digits and every later group exactly three. Counted from
      the end, every fourth character is the comma. */
  predicate WellGrouped(r: string) {
    && |r| % 4 != 0
    && (forall i :: 0 <= i < |r| ==> (r[i] == ',' <==> (|r| - i) % 4 == 0))
    && (forall i :: 0 <= i < |r| ==> r[i] == ',' || IsDigit(r[i]))
  }

  lemma {:induction false} GroupWellGrouped(s: string)
    requires |s| >= 1 && AllDigits(s)
    ensures WellGrouped(Group(s))
    ensures StripCommas(Group(s)) == s
    ensures |Group(s)| == |s| + (|s| - 1) / 3
  {
    if |s| <= 3 {
      FilterAll(s, NotComma);
    } else {
      var head, tail := s[..|s| - 3], s[|s| - 3..];
      GroupWellGrouped(head);
      assert Group(s) == Group(head) + "," + tail;
      AppendGroup(Group(head), tail);
      StripAppendGroup(Group(head), tail);
      assert s == head + tail;
    }
  }

  /** One more group of three digits keeps the commas in place. */
  lemma AppendGroup(g: string, tail: string)
    requires WellGrouped(g)
    requires |tail| == 3 && AllDigits(tail)
    ensures WellGrouped(g + "," + tail)
  {
    var r := g + "," + tail;
    forall i | 0 <= i < |r|
      ensures r[i] == ',' <==> (|r| - i) % 4 == 0
      ensures r[i] == ',' || IsDigit(r[i])
    {
      if i < |g| {
        assert r[i] == g[i];
        assert (|r| - i) % 4 == (|g| - i) % 4;
      } else if i > |g| {
        assert r[i] == tail[i - |g| - 1];
      }
    }
  }

  lemma StripAppendGroup(g: string, tail: string)
    requires AllDigits(tail)
    ensures StripCommas(g + "," + tail) == StripCommas(g) + tail
  {
    var gc := g + [','];
    assert g + "," + tail == gc + tail;
    FilterAppend(gc, tail, NotComma);
    assert StripCommas(gc) == StripCommas(g) by {
      FilterAppend(g, [','], NotComma);
      CommaStripped();
    }
    DigitsKept(tail);
  }

  lemma CommaStripped()
    ensures StripCommas([',']) == []
  {
  }

  lemma DigitsKept(s: string)
    requires AllDigits(s)
    ensures StripCommas(s) == s
  {
    FilterAll(s, NotComma);
  }

  /** `formatNumber`: the decimal form of `n` with a comma between every
      group of three digits. */
  function FormatNumber(n: nat): (r: string)
    ensures WellGrouped(r)
    ensures StripCommas(r) == Decimal(n)
    ensures r == Decimal(n) <==> n < 1000
  {
    GroupWellGrouped(Decimal(n));
    DecimalLength(n);
    Group(Decimal(n))
  }

  /** Removing the commas and reading the digits gives back the number. */
  lemma FormatNumberRoundTrip(n: nat)
    ensures AllDigits(StripCommas(FormatNumber(n)))
    ensures ParseDecimal(StripCommas(FormatNumber(n))) == n
  {
    DecimalRoundTrip(n);
  }
}

=== FILE: queries.dfy ===
/** Read-only questions the dashboard, goals and reports views ask of the
    activity list: filtering by type and recency, totals, the Monday that
    starts the current week, the weekly workout count and goal progress. */
module Queries {
  import opened Seqs
  import opened Activities

  /** The type argument of `getFilteredActivities`: `'all'` or one type. */
  datatype TypeFilter = AllTypes | OnlyType(kind: ActivityType)

  function KindIs(k: ActivityType): Activity -> bool {
    (a: Activity) => a.kind == k
  }

  function OnOrAfter(cutoff: Day): Activity -> bool {
    (a: Activity) => a.date >= cutoff
  }

  /** A record passes the type filter and, when `daysBack` is given, is
      dated no earlier than `daysBack` days before today. There is no upper
      bound: records dated after today pass. */
  predicate Selected(tf: TypeFilter, daysBack: Option<int>, today: Day, a: Activity) {
    && (tf.AllTypes? || a.kind == tf.kind)
    && (daysBack.None? || a.date >= today - daysBack.value)
  }

  function Selector(tf: TypeFilter, daysBack: Option<int>, today: Day): Activity -> bool {
    (a: Activity) => Selected(tf, daysBack, today, a)
  }

  /** Sum of `value` over a list, the `reduce((sum, a) => sum + a.value, 0)`. */
  function SumValues(s: seq<Activity>): int {
    if s == [] then 0 else s[0].value + SumValues(s[1..])
  }

  /** Reference sum: the values of the records of `s` that satisfy `p`. */
  function SumWhere(s: seq<Activity>, p: Activity -> bool): int {
    if s == [] then 0 else (if p(s[0]) then s[0].value else 0) + SumWhere(s[1..], p)
  }

  /** `getFilteredActivities(type, daysBack)`: the type filter first, then
      the date filter, `daysBack == None` standing for `null`. */
  function FilterActivities(acts: seq<Activity>, tf: TypeFilter, daysBack: Option<int>, today: Day): (r: seq<Activity>)
    ensures |r| <= |acts|
  {
    var byType := match tf
      case AllTypes => acts
      case OnlyType(k) => Filter(acts, KindIs(k));
    match daysBack
    case None => byType
    case Some(n) => Filter(byType, OnOrAfter(today - n))
  }

  /** The two-step filter is one order-preserving selection of exactly the
      records that match. */
  lemma FilterActivitiesIsSelection(acts: seq<Activity>, tf: TypeFilter, daysBack: Option<int>, today: Day)
    ensures FilterActivities(acts, tf, daysBack, today) == Filter(acts, Selector(tf, daysBack, today))
  {
    var sel := Selector(tf, daysBack, today);
    match tf {
      case AllTypes =>
        match daysBack {
          case None => FilterAll(acts, sel);
          case Some(n) => FilterExt(acts, OnOrAfter(today - n), sel);
        }
      case OnlyType(k) =>
        match daysBack {
          case None => FilterExt(acts, KindIs(k), sel);
          case Some(n) =>
            FilterFilter(acts, KindIs(k), OnOrAfter(today - n), sel);
        }
    }
  }

  /** The result is an order-preserving subsequence of the activities, every
      kept record matches, and every matching record is kept. */
  lemma FilterActivitiesSpec(acts: seq<Activity>, tf: TypeFilter, daysBack: Option<int>, today: Day)
    ensures IsSubseq(FilterActivities(acts, tf, daysBack, today), acts)
    ensures forall a :: a in FilterActivities(acts, tf, daysBack, today) <==> a in acts && Selected(tf, daysBack, today, a)
    ensures |FilterActivities(acts, tf, daysBack, today)| == Count(acts, Selector(tf, daysBack, today))
  {
    FilterActivitiesIsSelection(acts, tf, daysBack, today);
    FilterIsSubseq(acts, Selector(tf, daysBack, today));
    FilterMembers(acts, Selector(tf, daysBack, today));
  }

  /** `'all'` with no date range returns the whole list. */
  lemma FilterAllTypesIsIdentity(acts: seq<Activity>, today: Day)
    ensures FilterActivities(acts, AllTypes, None, today) == acts
  {
  }

  /** `calculateTotal(type, daysBack)`. */
  function Total(acts: seq<Activity>, tf: TypeFilter, daysBack: Option<int>, today: Day): int {
    SumValues(FilterActivities(acts, tf, daysBack, today))
  }

  lemma {:induction false} SumValuesFilter(s: seq<Activity>, p: Activity -> bool)
    ensures SumValues(Filter(s, p)) == SumWhere(s, p)
  {
    if s != [] {
      SumValuesFilter(s[1..], p);
      SumValuesAppend((if p(s[0]) then [s[0]] else []), Filter(s[1..], p));
    }
  }

  lemma {:induction false} SumValuesAppend(a: seq<Activity>, b: seq<Activity>)
    ensures SumValues(a + b) == SumValues(a) + SumValues(b)
  {
    if a == [] {
      assert a + b == b;
    } else {
      SumValuesAppend(a[1..], b);
      assert (a + b)[1..] == a[1..] + b;
    }
  }

  lemma {:induction false} SumWhereNone(s: seq<Activity>, p: Activity -> bool)
    requires forall a :: a in s ==> !p(a)
    ensures SumWhere(s, p) == 0
  {
    if s != [] {
      SumWhereNone(s[1..], p);
    }
  }

  lemma {:induction false} SumWhereExt(s: seq<Activity>, p: Activity -> bool, q: Activity -> bool)
    requires forall a :: a in s ==> p(a) == q(a)
    ensures SumWhere(s, p) == SumWhere(s, q)
  {
    if s != [] {
      SumWhereExt(s[1..], p, q);
    }
  }

  /** Summing over a predicate that is the disjoint union of two others
      adds the two sums. */
  lemma {:induction false} SumWhereSplit(s: seq<Activity>, pq: Activity -> bool, p: Activity -> bool, q: Activity -> bool)
    requires forall a :: a in s ==> (pq(a) <==> p(a) || q(a))
    requires forall a :: a in s ==> !(p(a) && q(a))
    ensures SumWhere(s, pq) == SumWhere(s, p) + SumWhere(s, q)
  {
    if s != [] {
      SumWhereSplit(s[1..], pq, p, q);
    }
  }

  /** The total is the sum of `value` over exactly the matching records,
      and 0 when none match. */
  lemma TotalSpec(acts: seq<Activity>, tf: TypeFilter, daysBack: Option<int>, today: Day)
    ensures Total(acts, tf, daysBack, today) == SumWhere(acts, Selector(tf, daysBack, today))
    ensures (forall a :: a in acts ==> !Selected(tf, daysBack, today, a)) ==> Total(acts, tf, daysBack, today) == 0
  {
    FilterActivitiesIsSelection(acts, tf, daysBack, today);
    SumValuesFilter(acts, Selector(tf, daysBack, today));
    if forall a :: a in acts ==> !Selected(tf, daysBack, today, a) {
      SumWhereNone(acts, Selector(tf, daysBack, today));
    }
  }

  // ----- The week -----

  /** Day of the week, 0 for Sunday, as `Date.prototype.getDay` numbers it;
      day 0 (1970-01-01) was a Thursday. */
  function Weekday(d: Day): (w: int)
    ensures 0 <= w < 7
  {
    (d + 4) % 7
  }

  /** How many days to move from a day with weekday `dayOfWeek` to reach the
      Monday that starts its week. */
  function WeekStartOffset(dayOfWeek: int): (r: int)
    requires 0 <= dayOfWeek < 7
    ensures -6 <= r <= 0
    ensures (dayOfWeek + r) % 7 == 1
    ensures r == -6 <==> dayOfWeek == 0
  {
    if dayOfWeek == 0 then -6 else 1 - dayOfWeek
  }

  /** `getWeekStart`: the latest Monday on or before `today`. */
  function WeekStart(today: Day): (m: Day)
    ensures Weekday(m) == 1
    ensures today - 6 <= m <= today
    ensures forall d :: m < d <= today ==> Weekday(d) != 1
  {
    today + WeekStartOffset(Weekday(today))
  }

  /** Every day from a Monday to the following Sunday has that Monday as its
      week start. */
  lemma SameWeek(t1: Day, t2: Day)
    requires WeekStart(t1) <= t2 < WeekStart(t1) + 7
    ensures WeekStart(t2) == WeekStart(t1)
  {
  }

  function WorkoutSince(monday: Day): Activity -> bool {
    (a: Activity) => a.kind == Workout && a.date >= monday
  }

  /** `calculateWorkoutsThisWeek`: the number of workouts dated on or after
      this week's Monday (with no upper bound on the date). */
  function WorkoutsThisWeek(acts: seq<Activity>, today: Day): (n: nat)
    ensures n <= Count(acts, KindIs(Workout))
  {
    var r := Filter(acts, WorkoutSince(WeekStart(today)));
    WorkoutCountBound(acts, WeekStart(today));
    |r|
  }

  lemma {:induction false} WorkoutCountBound(acts: seq<Activity>, monday: Day)
    ensures Count(acts, WorkoutSince(monday)) <= Count(acts, KindIs(Workout))
  {
    if acts != [] {
      WorkoutCountBound(acts[1..], monday);
    }
  }

  /** The count is the number of workouts dated on or after the week's
      Monday. */
  lemma WorkoutsThisWeekSpec(acts: seq<Activity>, today: Day)
    ensures WorkoutsThisWeek(acts, today) == Count(acts, WorkoutSince(WeekStart(today)))
    ensures WorkoutsThisWeek(acts, today) == Count(acts, (a: Activity) => a.kind == Workout && a.date >= WeekStart(today))
  {
    FilterExt(acts, WorkoutSince(WeekStart(today)), (a: Activity) => a.kind == Workout && a.date >= WeekStart(today));
  }

  /** The count does not depend on which day of the week it is asked on. */
  lemma WorkoutsSameWeek(acts: seq<Activity>, t1: Day, t2: Day)
    requires WeekStart(t1) <= t2 < WeekStart(t1) + 7
    ensures WorkoutsThisWeek(acts, t2) == WorkoutsThisWeek(acts, t1)
  {
    SameWeek(t1, t2);
  }

  /** A workout logged for any later day, even after today, adds one to this
      week's count; one dated before the Monday adds nothing. */
  lemma WorkoutsCountNoUpperBound(acts: seq<Activity>, today: Day, a: Activity)
    requires a.kind == Workout
    ensures a.date >= WeekStart(today) ==> WorkoutsThisWeek(acts + [a], today) == WorkoutsThisWeek(acts, today) + 1
    ensures a.date < WeekStart(today) ==> WorkoutsThisWeek(acts + [a], today) == WorkoutsThisWeek(acts, today)
  {
    CountAppend(acts, [a], WorkoutSince(WeekStart(today)));
  }

  // ----- Goal progress -----

  /** `Math.min((current / goal) * 100, 100)`, the width of a progress bar
      and the fill of a progress ring. The source divides unguarded, so the
      goal must be positive. */
  function GoalPercentage(current: int, goal: int): (p: real)
    requires goal > 0
    ensures p <= 100.0
    ensures p == 100.0 <==> current >= goal
    ensures current >= 0 ==> p >= 0.0
    ensures current < goal ==> p * (goal as real) == (current as real) * 100.0
  {
    var q := (current as real) / (goal as real);
    var raw := q * 100.0;
    RatioBelowOne(current, goal);
    assert q * (goal as real) == current as real;
    if raw < 100.0 then raw else 100.0
  }

  lemma RatioBelowOne(current: int, goal: int)
    requires goal > 0
    ensures (current as real) / (goal as real) * 100.0 < 100.0 <==> current < goal
    ensures current >= 0 ==> (current as real) / (goal as real) >= 0.0
  {
    var q := (current as real) / (goal as real);
    assert q * (goal as real) == current as real;
    if current < goal {
      assert q < 1.0;
    } else {
      assert q >= 1.0;
    }
  }

  /** More progress never shows a smaller percentage. */
  lemma GoalPercentageMonotone(c1: int, c2: int, goal: int)
    requires goal > 0
    requires c1 <= c2
    ensures GoalPercentage(c1, goal) <= GoalPercentage(c2, goal)
  {
    var g := goal as real;
    var q1 := (c1 as real) / g;
    var q2 := (c2 as real) / g;
    assert q1 * g == c1 as real;
    assert q2 * g == c2 as real;
    assert q1 <= q2;
  }
}

=== FILE: report.dfy ===
/** The CSV report offered for download: a header line, then one line per
    activity in date order, with commas in the notes turned into semicolons. */
module Report {
  import opened Seqs
  import opened NumberFormat
  import opened Activities
  import opened Series

  // ----- Dates as text -----

  datatype CivilDate = CivilDate(year: int, month: int, day: int)

  /** The proleptic Gregorian date of a day number (day 0 is 1970-01-01),
      by the era-based civil-from-days method. */
  function CivilFromDays(z: Day): (c: CivilDate)
    ensures 1 <= c.month <= 12 && 1 <= c.day <= 31
  {
    var shifted := z + 719468;
    var era := shifted / 146097;
    var dayOfEra := shifted - era * 146097;
    var yearOfEra := (dayOfEra - dayOfEra / 1460 + dayOfEra / 36524 - dayOfEra / 146096) / 365;
    var dayOfYear := dayOfEra - (365 * yearOfEra + yearOfEra / 4 - yearOfEra / 100);
    var marchMonth := (5 * dayOfYear + 2) / 153;
    var d := dayOfYear - (153 * marchMonth + 2) / 5 + 1;
    var m := if marchMonth < 10 then marchMonth + 3 else marchMonth - 9;
    CivilDate(if m <= 2 then yearOfEra + era * 400 + 1 else yearOfEra + era * 400, m, d)
  }

  function Zeros(n: nat): (s: string)
    ensures |s| == n && AllDigits(s)
  {
    if n == 0 then "" else "0" + Zeros(n - 1)
  }

  /** The decimal form of `n`, left-padded with zeros to `width` digits. */
  function ZeroPad(n: nat, width: nat): (s: string)
    ensures AllDigits(s) && |s| >= width
  {
    var digits := Decimal(n);
    if |digits| >= width then digits else Zeros(width - |digits|) + digits
  }

  /** Four-digit years; outside 0000-9999 a sign and six digits. Only the
      four-digit years come out as the program stores them: a stored year
      above 9999 is written without a sign. */
  function YearText(y: int): string {
    if 0 <= y <= 9999 then ZeroPad(y, 4)
    else if y < 0 then "-" + ZeroPad(-y, 6)
    else "+" + ZeroPad(y, 6)
  }

  /** The `YYYY-MM-DD` text of a day: the value of the form's date field,
      which is stored and exported as it is. */
  function IsoDate(z: Day): string {
    var c := CivilFromDays(z);
    YearText(c.year) + "-" + ZeroPad(c.month, 2) + "-" + ZeroPad(c.day, 2)
  }

  // ----- Sorting by date -----

  predicate SortedByDate(s: seq<Activity>) {
    forall i, j :: 0 <= i < j < |s| ==> s[i].date <= s[j].date
  }

  /** Places `x` after every record of `t` dated no later than it. */
  function InsertByDate(x: Activity, t: seq<Activity>): (r: seq<Activity>)
    requires SortedByDate(t)
    ensures |r| == |t| + 1
    ensures SortedByDate(r)
    ensures multiset(r) == multiset(t) + multiset{x}
  {
    if t == [] then [x]
    else if x.date < t[0].date then
      assert forall y :: y in t ==> t[0].date <= y.date;
      [x] + t
    else
      var rest := InsertByDate(x, t[1..]);
      InsertStep(t[0], t[1..], x, rest);
      assert t == [t[0]] + t[1..];
      [t[0]] + rest
  }

  /** The recursive step of `InsertByDate`: the head of a sorted list stays
      in front of the insertion into its tail. */
  lemma InsertStep(head: Activity, tail: seq<Activity>, x: Activity, rest: seq<Activity>)
    requires SortedByDate([head] + tail)
    requires head.date <= x.date
    requires SortedByDate(rest)
    requires multiset(rest) == multiset(tail) + multiset{x}
    ensures SortedByDate([head] + rest)
    ensures multiset([head] + rest) == multiset([head] + tail) + multiset{x}
  {
    var t := [head] + tail;
    forall y | y in rest
      ensures head.date <= y.date
    {
      assert y in multiset(rest);
      if y != x {
        assert multiset(rest)[y] == multiset(tail)[y] + multiset{x}[y];
        assert y in multiset(tail);
        assert t[0] == head;
        var k :| 0 <= k < |tail| && tail[k] == y;
        assert t[k + 1] == y;
      }
    }
    var r := [head] + rest;
    forall i, j | 0 <= i < j < |r|
      ensures r[i].date <= r[j].date
    {
      if i == 0 {
        assert r[j] == rest[j - 1];
        assert r[j] in rest;
      } else {
        assert r[i] == rest[i - 1] && r[j] == rest[j - 1];
      }
    }
  }

  /** `[...activities].sort((a, b) => new Date(a.date) - new Date(b.date))`:
      a stable sort by ascending date. */
  function SortByDate(s: seq<Activity>): (r: seq<Activity>)
    ensures SortedByDate(r)
    ensures multiset(r) == multiset(s)
    ensures |r| == |s|
  {
    if s == [] then []
    else
      assert s == s[..|s| - 1] + [s[|s| - 1]];
      InsertByDate(s[|s| - 1], SortByDate(s[..|s| - 1]))
  }

  /** Inserting keeps the records of each date in order, the new one last. */
  lemma {:induction false} InsertKeepsDayOrder(x: Activity, t: seq<Activity>, d: Day)
    requires SortedByDate(t)
    ensures Filter(InsertByDate(x, t), DatedOn(d)) == Filter(t, DatedOn(d)) + Filter([x], DatedOn(d))
  {
    if t == [] {
      assert Filter([], DatedOn(d)) == [];
    } else if x.date < t[0].date {
      InsertBeforeAll(x, t, d);
    } else {
      var head, tail := t[0], t[1..];
      InsertUnfold(x, t);
      InsertKeepsDayOrder(x, tail, d);
      SplitHead(t);
      FilterCons(head, InsertByDate(x, tail), tail, Filter([x], DatedOn(d)), DatedOn(d));
    }
  }

  lemma InsertUnfold(x: Activity, t: seq<Activity>)
    requires SortedByDate(t) && t != [] && t[0].date <= x.date
    ensures SortedByDate(t[1..])
    ensures InsertByDate(x, t) == [t[0]] + InsertByDate(x, t[1..])
  {
  }

  lemma InsertBeforeAll(x: Activity, t: seq<Activity>, d: Day)
    requires SortedByDate(t) && t != [] && x.date < t[0].date
    ensures Filter([x] + t, DatedOn(d)) == Filter(t, DatedOn(d)) + Filter([x], DatedOn(d))
  {
    FilterAppend([x], t, DatedOn(d));
    if x.date == d {
      assert forall y :: y in t ==> y.date > d;
      CountNone(t, DatedOn(d));
    } else {
      assert Filter([x], DatedOn(d)) == [];
    }
  }

  /** The sort is stable: the records of any one date keep their order. */
  lemma {:induction false} SortIsStable(s: seq<Activity>, d: Day)
    ensures Filter(SortByDate(s), DatedOn(d)) == Filter(s, DatedOn(d))
  {
    if s != [] {
      var init, last := s[..|s| - 1], s[|s| - 1];
      SortIsStable(init, d);
      SortUnfold(s);
      InsertKeepsDayOrder(last, SortByDate(init), d);
      SplitLast(s);
      FilterAppend(init, [last], DatedOn(d));
    }
  }

  lemma SortUnfold(s: seq<Activity>)
    requires s != []
    ensures SortByDate(s) == InsertByDate(s[|s| - 1], SortByDate(s[..|s| - 1]))
  {
  }

  // ----- The CSV text -----

  const CsvHeader := "Date,Type,Value,Notes\n"

  function TypeName(k: ActivityType): string {
    match k
    case Steps => "steps"
    case Workout => "workout"
    case Calories => "calories"
  }

  /** `String(value)` for an integer. */
  function IntText(v: int): string {
    if v < 0 then "-" + Decimal(-v) else Decimal(v)
  }

  /** `notes.replace(/,/g, ';')`. */
  function ReplaceCommas(s: string): (r: string)
    ensures |r| == |s|
    ensures forall i :: 0 <= i < |s| ==> r[i] == (if s[i] == ',' then ';' else s[i])
  {
    if s == [] then "" else [if s[0] == ',' then ';' else s[0]] + ReplaceCommas(s[1..])
  }

  /** One report line: date, type, value and the quoted notes. */
  function CsvRow(a: Activity): string {
    IsoDate(a.date) + "," + TypeName(a.kind) + "," + IntText(a.value) + ",\"" + ReplaceCommas(a.notes) + "\"\n"
  }

  function CsvRows(s: seq<Activity>): string {
    if s == [] then "" else CsvRow(s[0]) + CsvRows(s[1..])
  }

  /** The text `exportReport` puts in the downloaded file: the header, then
      the rows of a date-ordered rearrangement of the activities in which
      the records of each date keep their stored order. */
  function ExportCsv(acts: seq<Activity>): (csv: string)
    ensures |csv| >= |CsvHeader| && csv[..|CsvHeader|] == CsvHeader
    ensures exists sorted ::
      (SortedByDate(sorted) && multiset(sorted) == multiset(acts)
       && (forall d :: Filter(sorted, DatedOn(d)) == Filter(acts, DatedOn(d)))
       && csv == CsvHeader + CsvRows(sorted))
  {
    var sorted := SortByDate(acts);
    SortStableAll(acts);
    CsvHeader + CsvRows(sorted)
  }

  lemma SortStableAll(s: seq<Activity>)
    ensures forall d :: Filter(SortByDate(s), DatedOn(d)) == Filter(s, DatedOn(d))
  {
    forall d {
      SortIsStable(s, d);
    }
  }

  // ----- What the text looks like -----

  function CharIs(c: char): char -> bool {
    (x: char) => x == c
  }

  /** Occurrences of `c` in `s`. */
  function Occurrences(s: string, c: char): nat {
    Count(s, CharIs(c))
  }

  /** Text in which `c` does not occur. */
  predicate Free(s: string, c: char) {
    forall i :: 0 <= i < |s| ==> s[i] != c
  }

  /** Text with no comma, quote or line break: safe inside a CSV field. */
  predicate Plain(s: string) {
    forall i :: 0 <= i < |s| ==> s[i] != ',' && s[i] != '"' && s[i] != '\n'
  }

  lemma PlainDigits(s: string)
    requires AllDigits(s)
    ensures Plain(s)
  {
  }

  lemma PlainYear(y: int)
    ensures Plain(YearText(y))
  {
    if 0 <= y <= 9999 {
      PlainDigits(ZeroPad(y, 4));
    } else if y < 0 {
      PlainDigits(ZeroPad(-y, 6));
    } else {
      PlainDigits(ZeroPad(y, 6));
    }
  }

  lemma PlainDate(z: Day)
    ensures Plain(IsoDate(z))
  {
    var c := CivilFromDays(z);
    PlainYear(c.year);
    PlainDigits(ZeroPad(c.month, 2));
    PlainDigits(ZeroPad(c.day, 2));
  }

  lemma PlainInt(v: int)
    ensures Plain(IntText(v))
  {
    if v < 0 {
      var digits := Decimal(-v);
      PlainDigits(digits);
      assert IntText(v) == "-" + digits;
      assert forall i :: 1 <= i < |IntText(v)| ==> IntText(v)[i] == digits[i - 1];
    } else {
      PlainDigits(Decimal(v));
    }
  }

  lemma PlainType(k: ActivityType)
    ensures Plain(TypeName(k))
  {
    match k
    case Steps => assert TypeName(k) == "steps";
    case Workout => assert TypeName(k) == "workout";
    case Calories => assert TypeName(k) == "calories";
  }

  lemma PlainFields(a: Activity)
    ensures Plain(IsoDate(a.date)) && Plain(TypeName(a.kind)) && Plain(IntText(a.value))
  {
    PlainDate(a.date);
    PlainType(a.kind);
    PlainInt(a.value);
  }

  lemma {:induction false} OccurrencesAppend(s: string, t: string, c: char)
    ensures Occurrences(s + t, c) == Occurrences(s, c) + Occurrences(t, c)
  {
    CountAppend(s, t, CharIs(c));
  }

  lemma PlainHasNone(s: string, c: char)
    requires Plain(s)
    requires c == ',' || c == '"' || c == '\n'
    ensures Occurrences(s, c) == 0
  {
    CountNone(s, CharIs(c));
  }

  /** The notes field never contains a comma. */
  lemma NotesHaveNoComma(s: string)
    ensures Occurrences(ReplaceCommas(s), ',') == 0
  {
    CountNone(ReplaceCommas(s), CharIs(','));
  }

  /** Every row has exactly three commas, so it splits into the four
      columns of the header, whatever the notes held; with notes free of
      quotes and line breaks it has exactly two quotes and one line break. */
  lemma RowShape(a: Activity)
    ensures Occurrences(CsvRow(a), ',') == 3
    ensures Free(a.notes, '"') ==> Occurrences(CsvRow(a), '"') == 2
    ensures Free(a.notes, '\n') ==> Occurrences(CsvRow(a), '\n') == 1
    ensures |CsvRow(a)| >= 1 && CsvRow(a)[|CsvRow(a)| - 1] == '\n'
  {
    PlainFields(a);
    NotesHaveNoComma(a.notes);
    RowCount(a, ',');
    if Free(a.notes, '"') {
      ReplacedHasNone(a.notes, '"');
      RowCount(a, '"');
    }
    if Free(a.notes, '\n') {
      ReplacedHasNone(a.notes, '\n');
      RowCount(a, '\n');
    }
  }

  /** Rewriting commas adds no character other than `;`. */
  lemma ReplacedHasNone(s: string, c: char)
    requires c != ';'
    requires Free(s, c)
    ensures Occurrences(ReplaceCommas(s), c) == 0
  {
    CountNone(ReplaceCommas(s), CharIs(c));
  }

  /** Occurrences of a field separator in a row whose first three fields
      are plain: those of the fixed punctuation plus those of the notes. */
  lemma RowCount(a: Activity, c: char)
    requires c == ',' || c == '"' || c == '\n'
    requires Plain(IsoDate(a.date)) && Plain(TypeName(a.kind)) && Plain(IntText(a.value))
    ensures Occurrences(CsvRow(a), c) == Occurrences(ReplaceCommas(a.notes), c) + (if c == ',' then 3 else if c == '"' then 2 else 1)
  {
    var date, kind, value, notes := IsoDate(a.date), TypeName(a.kind), IntText(a.value), ReplaceCommas(a.notes);
    RowOccurrences(date, kind, value, notes, c);
    PlainHasNone(date, c);
    PlainHasNone(kind, c);
    PlainHasNone(value, c);
    PunctuationCounts(c);
  }

  lemma PunctuationCounts(c: char)
    requires c == ',' || c == '"' || c == '\n'
    ensures Occurrences(",", c) + Occurrences(",", c) + Occurrences(",\"", c) + Occurrences("\"\n", c)
      == (if c == ',' then 3 else if c == '"' then 2 else 1)
  {
    assert ",\"" == [','] + ['"'];
    assert "\"\n" == ['"'] + ['\n'];
    OccurrencesAppend([','], ['"'], c);
    OccurrencesAppend(['"'], ['\n'], c);
  }

  lemma RowOccurrences(date: string, kind: string, value: string, notes: string, c: char)
    ensures Occurrences(date + "," + kind + "," + value + ",\"" + notes + "\"\n", c) ==
      Occurrences(date, c) + Occurrences(",", c) + Occurrences(kind, c) + Occurrences(",", c)
      + Occurrences(value, c) + Occurrences(",\"", c) + Occurrences(notes, c) + Occurrences("\"\n", c)
  {
    OccurrencesAppend(date, ",", c);
    OccurrencesAppend(date + ",", kind, c);
    OccurrencesAppend(date + "," + kind, ",", c);
    OccurrencesAppend(date + "," + kind + ",", value, c);
    OccurrencesAppend(date + "," + kind + "," + value, ",\"", c);
    OccurrencesAppend(date + "," + kind + "," + value + ",\"", notes, c);
    OccurrencesAppend(date + "," + kind + "," + value + ",\"" + notes, "\"\n", c);
  }

  // ----- Reading a row back -----

  /** `s.split(c)`: the pieces between the occurrences of `c`, so one more
      piece than there are occurrences, and `[""]` for the empty text. */
  function Split(s: string, c: char): (r: seq<string>)
    ensures |r| >= 1
  {
    if s == [] then [[]]
    else if s[0] == c then [[]] + Split(s[1..], c)
    else var t := Split(s[1..], c); [[s[0]] + t[0]] + t[1..]
  }

  /** Text without the separator is a single piece. */
  lemma {:induction false} SplitFree(s: string, c: char)
    requires Free(s, c)
    ensures Split(s, c) == [s]
  {
    if s != [] {
      SplitFree(s[1..], c);
      assert s == [s[0]] + s[1..];
    }
  }

  /** A separator-free prefix ended by the separator is the first piece. */
  lemma {:induction false} SplitField(p: string, c: char, rest: string)
    requires Free(p, c)
    ensures Split(p + [c] + rest, c) == [p] + Split(rest, c)
  {
    var s := p + [c] + rest;
    if p == [] {
      assert s[0] == c && s[1..] == rest;
    } else {
      assert s[0] == p[0] && s[1..] == p[1..] + [c] + rest;
      SplitField(p[1..], c, rest);
      assert [p[0]] + p[1..] == p;
    }
  }

  /** The row text regrouped around its three field commas. */
  lemma {:induction false} RowRegroup(date: string, kind: string, value: string, notes: string)
    ensures date + "," + kind + "," + value + ",\"" + notes + "\"\n"
      == date + [','] + (kind + [','] + (value + [','] + ("\"" + notes + "\"\n")))
  {
    var last := "\"" + notes + "\"\n";
    assert value + ",\"" + notes + "\"\n" == value + [','] + last;
    assert kind + "," + value + ",\"" + notes + "\"\n" == kind + [','] + (value + [','] + last);
  }

  /** Four separator-free pieces joined by the separator split back apart. */
  lemma {:induction false} SplitFour(f1: string, f2: string, f3: string, f4: string, c: char)
    requires Free(f1, c) && Free(f2, c) && Free(f3, c) && Free(f4, c)
    ensures Split(f1 + [c] + (f2 + [c] + (f3 + [c] + f4)), c) == [f1, f2, f3, f4]
  {
    SplitFree(f4, c);
    SplitField(f3, c, f4);
    SplitField(f2, c, f3 + [c] + f4);
    SplitField(f1, c, f2 + [c] + (f3 + [c] + f4));
  }

  /** The quoted notes field holds no comma. */
  lemma {:induction false} NotesFieldFree(notes: string)
    ensures Free("\"" + ReplaceCommas(notes) + "\"\n", ',')
  {
    var r := ReplaceCommas(notes);
    var last := "\"" + r + "\"\n";
    assert forall i :: 0 <= i < |r| ==> last[i + 1] == r[i];
  }

  /** Fields free of commas, joined as a row joins them, split back apart
      on commas; the last piece is the quoted notes with the line break. */
  lemma {:induction false} RowSplits(date: string, kind: string, value: string, notes: string)
    requires Free(date, ',') && Free(kind, ',') && Free(value, ',')
    ensures Split(date + "," + kind + "," + value + ",\"" + ReplaceCommas(notes) + "\"\n", ',') ==
      [date, kind, value, "\"" + ReplaceCommas(notes) + "\"\n"]
  {
    var r := ReplaceCommas(notes);
    NotesFieldFree(notes);
    RowRegroup(date, kind, value, r);
    SplitFour(date, kind, value, "\"" + r + "\"\n", ',');
  }

  /** Splitting a row with `split(',')` gives back exactly the date, the type, the value and the quoted notes
      (with the closing line break). */
  lemma RowFields(a: Activity)
    ensures Split(CsvRow(a), ',') ==
      [IsoDate(a.date), TypeName(a.kind), IntText(a.value), "\"" + ReplaceCommas(a.notes) + "\"\n"]
  {
    PlainFields(a);
    RowSplits(IsoDate(a.date), TypeName(a.kind), IntText(a.value), a.notes);
  }

  lemma {:induction false} RowsLines(s: seq<Activity>)
    requires forall a :: a in s ==> Free(a.notes, '\n')
    ensures Occurrences(CsvRows(s), '\n') == |s|
  {
    if s != [] {
      RowShape(s[0]);
      RowsLines(s[1..]);
      OccurrencesAppend(CsvRow(s[0]), CsvRows(s[1..]), '\n');
    }
  }

  lemma HeaderLines()
    ensures Occurrences(CsvHeader, '\n') == 1
  {
    var title := "Date,Type,Value,Notes";
    assert CsvHeader == title + "\n";
    assert forall i :: 0 <= i < |title| ==> title[i] != '\n';
    CountNone(title, CharIs('\n'));
    OccurrencesAppend(title, "\n", '\n');
  }

  /** With notes free of line breaks the report has exactly one line for
      the header and one per activity. */
  lemma ExportLines(acts: seq<Activity>)
    requires forall a :: a in acts ==> Free(a.notes, '\n')
    ensures Occurrences(ExportCsv(acts), '\n') == |acts| + 1
  {
    var sorted := SortByDate(acts);
    forall a | a in sorted
      ensures Free(a.notes, '\n')
    {
      assert a in multiset(sorted);
    }
    RowsLines(sorted);
    HeaderLines();
    OccurrencesAppend(CsvHeader, CsvRows(sorted), '\n');
  }

  /** A record without notes ends its row with the empty quoted field. */
  lemma EmptyNotesRow(a: Activity)
    requires a.notes == ""
    ensures |CsvRow(a)| >= 4
    ensures CsvRow(a)[|CsvRow(a)| - 4..] == ",\"\"\n"
  {
    var front := IsoDate(a.date) + "," + TypeName(a.kind) + "," + IntText(a.value);
    assert ReplaceCommas(a.notes) == "";
    assert CsvRow(a) == front + ",\"\"\n";
  }

  // ----- A worked example -----
  // `ExportExample` states the whole report for one record. `IsoDateExample`
  // states the date text of its day. The other lemmas of this section are
  // steps of those two proofs, split only so that each stays small.

  lemma IsoDateExample()
    ensures IsoDate(19724) == "2024-01-02"
  {
    CivilExample();
    YearExample();
    PadExample();
  }

  lemma CivilExample()
    ensures CivilFromDays(19724) == CivilDate(2024, 1, 2)
  {
    assert 739192 / 146097 == 5;
    assert (8707 - 8707 / 1460 + 8707 / 36524 - 8707 / 146096) / 365 == 23;
    assert 8707 - (365 * 23 + 23 / 4 - 23 / 100) == 307;
    assert (5 * 307 + 2) / 153 == 10;
    assert 307 - (153 * 10 + 2) / 5 + 1 == 2;
  }

  lemma YearExample()
    ensures YearText(2024) == "2024"
  {
    assert Decimal(2) == "2";
    assert Decimal(20) == "20";
    assert Decimal(202) == "202";
    assert Decimal(2024) == "2024";
  }

  lemma PadExample()
    ensures ZeroPad(1, 2) == "01" && ZeroPad(2, 2) == "02"
  {
    assert Decimal(1) == "1";
    assert Decimal(2) == "2";
    assert Zeros(1) == "0";
  }

  lemma IntTextExample()
    ensures IntText(500) == "500"
  {
    assert Decimal(5) == "5";
    assert Decimal(50) == "50";
  }

  lemma NotesExample()
    ensures ReplaceCommas("a,b") == "a;b"
  {
    assert ReplaceCommas("b") == "b";
    assert ReplaceCommas(",b") == ";b";
  }

  lemma RowPiecesExample()
    ensures CsvRow(Activity("x", Steps, 500, 19724, "a,b", None, None))
      == "2024-01-02" + "," + "steps" + "," + "500" + ",\"" + "a;b" + "\"\n"
  {
    IsoDateExample();
    IntTextExample();
    NotesExample();
  }

  lemma JoinExample(row: string)
    requires row == "2024-01-02" + "," + "steps" + "," + "500" + ",\"" + "a;b" + "\"\n"
    ensures row == "2024-01-02,steps,500,\"a;b\"\n"
  {
  }

  lemma RowExample()
    ensures CsvRow(Activity("x", Steps, 500, 19724, "a,b", None, None)) == "2024-01-02,steps,500,\"a;b\"\n"
  {
    RowPiecesExample();
    JoinExample(CsvRow(Activity("x", Steps, 500, 19724, "a,b", None, None)));
  }

  /** A report of one activity is the header and that activity's row. */
  lemma ExportSingle(a: Activity)
    ensures ExportCsv([a]) == CsvHeader + CsvRow(a)
  {
    SortSingle(a);
    RowsSingle(a);
  }

  lemma SortSingle(a: Activity)
    ensures SortByDate([a]) == [a]
  {
    assert [a][..0] == [];
  }

  lemma RowsSingle(a: Activity)
    ensures CsvRows([a]) == CsvRow(a)
  {
    assert [a][1..] == [];
  }

  lemma JoinHeaderExample(csv: string, row: string)
    requires row == "2024-01-02,steps,500,\"a;b\"\n"
    requires csv == CsvHeader + row
    ensures csv == "Date,Type,Value,Notes\n2024-01-02,steps,500,\"a;b\"\n"
  {
  }

  /** The report for one steps record of 500 on 2024-01-02 (day 19724)
      with the notes "a,b". */
  lemma ExportExample()
    ensures ExportCsv([Activity("x", Steps, 500, 19724, "a,b", None, None)])
      == "Date,Type,Value,Notes\n2024-01-02,steps,500,\"a;b\"\n"
  {
    var a := Activity("x", Steps, 500, 19724, "a,b", None, None);
    ExportSingle(a);
    RowExample();
    JoinHeaderExample(ExportCsv([a]), CsvRow(a));
  }
}

=== FILE: seqs.dfy ===
/** Order-preserving selection over sequences: the `Array.prototype.filter`
    that every query of the tracker is built from, with the facts the
    other modules need about it. */
module Seqs {

  /** `a` can be obtained from `b` by deleting elements, keeping the order. */
  predicate IsSubseq<T(==)>(a: seq<T>, b: seq<T>)
    decreases |b|
  {
    if a == [] then true
    else if b == [] then false
    else if a[0] == b[0] then IsSubseq(a[1..], b[1..])
    else IsSubseq(a, b[1..])
  }

  /** Number of elements of `s` that satisfy `p`. */
  function Count<T>(s: seq<T>, p: T -> bool): (n: nat)
    ensures n <= |s|
  {
    if s == [] then 0 else (if p(s[0]) then 1 else 0) + Count(s[1..], p)
  }

  /** The elements of `s` that satisfy `p`, in their original order. */
  function Filter<T>(s: seq<T>, p: T -> bool): (r: seq<T>)
    ensures |r| == Count(s, p)
    ensures forall i :: 0 <= i < |r| ==> p(r[i])
  {
    if s == [] then [] else (if p(s[0]) then [s[0]] else []) + Filter(s[1..], p)
  }

  /** `Filter` keeps exactly the members of `s` that satisfy `p`. */
  lemma {:induction false} FilterMembers<T>(s: seq<T>, p: T -> bool)
    ensures forall x :: x in Filter(s, p) <==> x in s && p(x)
  {
    if s != [] {
      FilterMembers(s[1..], p);
      assert s == [s[0]] + s[1..];
    }
  }

  lemma {:induction false} FilterIsSubseq<T>(s: seq<T>, p: T -> bool)
    ensures IsSubseq(Filter(s, p), s)
  {
    if s != [] {
      var rest := Filter(s[1..], p);
      FilterIsSubseq(s[1..], p);
      assert s == [s[0]] + s[1..];
      if p(s[0]) {
        assert Filter(s, p) == [s[0]] + rest;
        assert Filter(s, p)[1..] == rest;
      } else {
        assert Filter(s, p) == rest;
        SubseqDropFront(rest, s[1..], s[0]);
      }
    }
  }

  /** Prepending an element to the longer sequence keeps a subsequence one. */
  lemma {:induction false} SubseqDropFront<T>(a: seq<T>, b: seq<T>, x: T)
    requires IsSubseq(a, b)
    ensures IsSubseq(a, [x] + b)
    decreases |b|, 1
  {
    var xb := [x] + b;
    assert xb[1..] == b;
    if a != [] && a[0] == x {
      SubseqTail(a, b);
    }
  }

  /** Dropping the head of a subsequence keeps it a subsequence. */
  lemma {:induction false} SubseqTail<T>(a: seq<T>, b: seq<T>)
    requires a != [] && IsSubseq(a, b)
    ensures IsSubseq(a[1..], b)
    decreases |b|, 0
  {
    assert b == [b[0]] + b[1..];
    if a[0] == b[0] {
      SubseqDropFront(a[1..], b[1..], b[0]);
    } else {
      SubseqTail(a, b[1..]);
      SubseqDropFront(a[1..], b[1..], b[0]);
    }
  }

  /** Every element of a subsequence occurs in the sequence. */
  lemma {:induction false} SubseqMembers<T>(a: seq<T>, b: seq<T>)
    requires IsSubseq(a, b)
    ensures forall x :: x in a ==> x in b
    decreases |b|
  {
    if a != [] {
      if a[0] == b[0] {
        SubseqMembers(a[1..], b[1..]);
        assert a == [a[0]] + a[1..];
      } else {
        SubseqMembers(a, b[1..]);
      }
    }
  }

  /** A subsequence whose elements all satisfy `p` is no longer than the
      number of `p`-elements it was taken from. */
  lemma {:induction false} SubseqCountBound<T>(r: seq<T>, s: seq<T>, p: T -> bool)
    requires IsSubseq(r, s)
    requires forall i :: 0 <= i < |r| ==> p(r[i])
    ensures |r| <= Count(s, p)
    decreases |s|
  {
    if r != [] {
      if r[0] == s[0] {
        SubseqCountBound(r[1..], s[1..], p);
      } else {
        SubseqCountBound(r, s[1..], p);
      }
    }
  }

  /** `Filter` is the only subsequence of `s` made of `p`-elements that has
      `Count(s, p)` elements: the three properties pin it down. */
  lemma {:induction false} FilterUnique<T>(r: seq<T>, s: seq<T>, p: T -> bool)
    requires IsSubseq(r, s)
    requires forall i :: 0 <= i < |r| ==> p(r[i])
    requires |r| == Count(s, p)
    ensures r == Filter(s, p)
    decreases |s|
  {
    if s == [] {
    } else if r == [] {
      assert |Filter(s, p)| == 0;
    } else if r[0] == s[0] {
      FilterUnique(r[1..], s[1..], p);
      assert r == [r[0]] + r[1..];
    } else {
      if p(s[0]) {
        SubseqCountBound(r, s[1..], p);
        assert false;
      }
      FilterUnique(r, s[1..], p);
    }
  }

  /** Nothing satisfies `p`: the count is 0 and the filter empty. */
  lemma {:induction false} CountNone<T>(s: seq<T>, p: T -> bool)
    requires forall x :: x in s ==> !p(x)
    ensures Count(s, p) == 0
    ensures Filter(s, p) == []
  {
    if s != [] {
      CountNone(s[1..], p);
    }
  }

  /** Filtering by a predicate that holds everywhere changes nothing. */
  lemma {:induction false} FilterAll<T>(s: seq<T>, p: T -> bool)
    requires forall x :: x in s ==> p(x)
    ensures Filter(s, p) == s
  {
    if s != [] {
      FilterAll(s[1..], p);
      assert s == [s[0]] + s[1..];
    }
  }

  /** Two predicates that agree on every element select the same elements. */
  lemma {:induction false} FilterExt<T>(s: seq<T>, p: T -> bool, q: T -> bool)
    requires forall x :: x in s ==> p(x) == q(x)
    ensures Filter(s, p) == Filter(s, q)
    ensures Count(s, p) == Count(s, q)
  {
    if s != [] {
      FilterExt(s[1..], p, q);
    }
  }

  /** Two filters in a row are one filter by the conjunction `pq`. */
  lemma {:induction false} FilterFilter<T>(s: seq<T>, p: T -> bool, q: T -> bool, pq: T -> bool)
    requires forall x :: pq(x) == (p(x) && q(x))
    ensures Filter(Filter(s, p), q) == Filter(s, pq)
  {
    if s != [] {
      FilterFilter(s[1..], p, q, pq);
      FilterAppend((if p(s[0]) then [s[0]] else []), Filter(s[1..], p), q);
    }
  }

  lemma {:induction false} FilterAppend<T>(a: seq<T>, b: seq<T>, p: T -> bool)
    ensures Filter(a + b, p) == Filter(a, p) + Filter(b, p)
  {
    if a == [] {
      assert a + b == b;
    } else {
      var ab := a + b;
      var h := if p(a[0]) then [a[0]] else [];
      assert ab[0] == a[0];
      assert ab[1..] == a[1..] + b;
      FilterAppend(a[1..], b, p);
      assert Filter(ab, p) == h + Filter(ab[1..], p);
      assert Filter(a, p) == h + Filter(a[1..], p);
      assert h + (Filter(a[1..], p) + Filter(b, p)) == (h + Filter(a[1..], p)) + Filter(b, p);
    }
  }

  /** Filtering a list with a new head: the head, if it passes, in front of
      the filtered rest. */
  lemma FilterPrepend<T>(x: T, s: seq<T>, p: T -> bool)
    ensures Filter([x] + s, p) == (if p(x) then [x] else []) + Filter(s, p)
  {
    assert ([x] + s)[1..] == s;
  }

  /** An equation between filtered lists survives giving both lists the
      same new head. */
  lemma FilterCons<T>(x: T, s: seq<T>, t: seq<T>, extra: seq<T>, p: T -> bool)
    requires Filter(s, p) == Filter(t, p) + extra
    ensures Filter([x] + s, p) == Filter([x] + t, p) + extra
  {
    var h := if p(x) then [x] else [];
    FilterPrepend(x, s, p);
    FilterPrepend(x, t, p);
    AppendAssoc(h, Filter(t, p), extra);
  }

  lemma AppendAssoc<T>(a: seq<T>, b: seq<T>, c: seq<T>)
    ensures a + (b + c) == (a + b) + c
  {
  }

  /** A non-empty sequence is its front followed by its last element. */
  lemma SplitLast<T>(s: seq<T>)
    requires s != []
    ensures s == s[..|s| - 1] + [s[|s| - 1]]
  {
  }

  lemma {:induction false} CountAppend<T>(a: seq<T>, b: seq<T>, p: T -> bool)
    ensures Count(a + b, p) == Count(a, p) + Count(b, p)
  {
    FilterAppend(a, b, p);
  }

  /** A non-empty sequence is its head followed by its tail. */
  lemma SplitHead<T>(s: seq<T>)
    requires s != []
    ensures s == [s[0]] + s[1..]
  {
  }

  /** When `p` is the complement of `q`, the `p`-elements are all the others. */
  lemma {:induction false} CountComplement<T>(s: seq<T>, p: T -> bool, q: T -> bool)
    requires forall x :: p(x) == !q(x)
    ensures Count(s, p) == |s| - Count(s, q)
  {
    if s != [] {
      CountComplement(s[1..], p, q);
    }
  }
}

=== FILE: series.dfy ===
/** The day-bucketed series behind the dashboard's weekly chart and the
    reports' 30-day trend chart: one sum per calendar day, oldest first. */
module Series {
  import opened Seqs
  import opened Activities
  import opened Queries

  function DatedOn(day: Day): Activity -> bool {
    (a: Activity) => a.date == day
  }

  function OfKindOn(k: ActivityType, day: Day): Activity -> bool {
    (a: Activity) => a.kind == k && a.date == day
  }

  function OfKindBetween(k: ActivityType, first: Day, last: Day): Activity -> bool {
    (a: Activity) => a.kind == k && first <= a.date <= last
  }

  /** Reference value of one bucket: the values of the records of type `k`
      dated `day`, summed; 0 when there are none. */
  function DayTotal(acts: seq<Activity>, k: ActivityType, day: Day): int {
    SumWhere(acts, OfKindOn(k, day))
  }

  /** Reference total over the days `first` to `last`, both included. */
  function WindowTotal(acts: seq<Activity>, k: ActivityType, first: Day, last: Day): int {
    SumWhere(acts, OfKindBetween(k, first, last))
  }

  /** One bucket as the source computes it: the records of the day, then
      those of one type, then the sum of their values. */
  function Bucket(acts: seq<Activity>, k: ActivityType, day: Day): int {
    SumValues(Filter(Filter(acts, DatedOn(day)), KindIs(k)))
  }

  lemma BucketIsDayTotal(acts: seq<Activity>, k: ActivityType, day: Day)
    ensures Bucket(acts, k, day) == DayTotal(acts, k, day)
  {
    FilterFilter(acts, DatedOn(day), KindIs(k), OfKindOn(k, day));
    SumValuesFilter(acts, OfKindOn(k, day));
  }

  lemma BucketsAreDayTotals(acts: seq<Activity>, k: ActivityType)
    ensures forall day :: Bucket(acts, k, day) == DayTotal(acts, k, day)
  {
    forall day {
      BucketIsDayTotal(acts, k, day);
    }
  }

  /** The `n` buckets of type `k` ending with `today`, oldest first. */
  function Trailing(acts: seq<Activity>, k: ActivityType, today: Day, n: nat): (r: seq<int>)
    ensures |r| == n
    ensures forall i :: 0 <= i < n ==> r[i] == DayTotal(acts, k, today - (n - 1 - i))
  {
    BucketsAreDayTotals(acts, k);
    seq(n, i => Bucket(acts, k, today - (n - 1 - i)))
  }

  /** The value part of `getLast7DaysData` / `getLast30DaysData`. */
  datatype DailySeries = DailySeries(steps: seq<int>, calories: seq<int>)

  /** `getLast7DaysData`: entry `i` belongs to day `today - 6 + i`. */
  function Last7Days(acts: seq<Activity>, today: Day): (r: DailySeries)
    ensures |r.steps| == 7 && |r.calories| == 7
    ensures forall i :: 0 <= i < 7 ==>
      r.steps[i] == DayTotal(acts, Steps, today - 6 + i) && r.calories[i] == DayTotal(acts, Calories, today - 6 + i)
  {
    DailySeries(Trailing(acts, Steps, today, 7), Trailing(acts, Calories, today, 7))
  }

  /** `getLast30DaysData`: entry `i` belongs to day `today - 29 + i`. */
  function Last30Days(acts: seq<Activity>, today: Day): (r: DailySeries)
    ensures |r.steps| == 30 && |r.calories| == 30
    ensures forall i :: 0 <= i < 30 ==>
      r.steps[i] == DayTotal(acts, Steps, today - 29 + i) && r.calories[i] == DayTotal(acts, Calories, today - 29 + i)
  {
    DailySeries(Trailing(acts, Steps, today, 30), Trailing(acts, Calories, today, 30))
  }

  function SumInts(s: seq<int>): int {
    if s == [] then 0 else SumInts(s[..|s| - 1]) + s[|s| - 1]
  }

  /** The buckets add up to the total over the window they cover. */
  lemma {:induction false} TrailingSum(acts: seq<Activity>, k: ActivityType, today: Day, n: nat)
    ensures SumInts(Trailing(acts, k, today, n)) == WindowTotal(acts, k, today - n + 1, today)
    decreases n
  {
    if n == 0 {
      SumWhereNone(acts, OfKindBetween(k, today + 1, today));
    } else {
      var r := Trailing(acts, k, today, n);
      var older := Trailing(acts, k, today - 1, n - 1);
      assert r[..n - 1] == older;
      TrailingSum(acts, k, today - 1, n - 1);
      SumWhereSplit(acts, OfKindBetween(k, today - n + 1, today),
        OfKindBetween(k, today - n + 1, today - 1), OfKindOn(k, today));
    }
  }

  /** With nothing of type `k` dated after today, the `n` buckets add up to
      `calculateTotal(k, n - 1)`. */
  lemma TrailingSumIsTotal(acts: seq<Activity>, k: ActivityType, today: Day, n: nat)
    requires n >= 1
    requires forall a :: a in acts && a.kind == k ==> a.date <= today
    ensures SumInts(Trailing(acts, k, today, n)) == Total(acts, OnlyType(k), Some(n - 1), today)
  {
    TrailingSum(acts, k, today, n);
    TotalSpec(acts, OnlyType(k), Some(n - 1), today);
    SumWhereExt(acts, OfKindBetween(k, today - n + 1, today), Selector(OnlyType(k), Some(n - 1), today));
  }

  /** The 7-day step series adds up to the step total over its 7 days. */
  lemma SevenDayStepsSum(acts: seq<Activity>, today: Day)
    ensures SumInts(Last7Days(acts, today).steps) == WindowTotal(acts, Steps, today - 6, today)
  {
    TrailingSum(acts, Steps, today, 7);
  }

  /** With nothing of type `k` dated after today, `calculateTotal(k, 0)` is
      the total of the records dated today. */
  lemma TodayTotal(acts: seq<Activity>, k: ActivityType, today: Day)
    requires forall a :: a in acts && a.kind == k ==> a.date <= today
    ensures Total(acts, OnlyType(k), Some(0), today) == DayTotal(acts, k, today)
  {
    TotalSpec(acts, OnlyType(k), Some(0), today);
    SumWhereExt(acts, OfKindOn(k, today), Selector(OnlyType(k), Some(0), today));
  }

  /** `calculateTotal(k, 0)` has no upper bound on the date: a record dated
      after today is added to "today's" total. */
  lemma TodayTotalCountsFuture(acts: seq<Activity>, today: Day, a: Activity)
    requires a.date > today
    ensures Total(acts + [a], OnlyType(a.kind), Some(0), today) == Total(acts, OnlyType(a.kind), Some(0), today) + a.value
  {
    var sel := Selector(OnlyType(a.kind), Some(0), today);
    TotalSpec(acts + [a], OnlyType(a.kind), Some(0), today);
    TotalSpec(acts, OnlyType(a.kind), Some(0), today);
    SumWhereAppend(acts, [a], sel);
  }

  lemma {:induction false} SumWhereAppend(s: seq<Activity>, t: seq<Activity>, p: Activity -> bool)
    ensures SumWhere(s + t, p) == SumWhere(s, p) + SumWhere(t, p)
  {
    if s == [] {
      assert s + t == t;
    } else {
      SumWhereAppend(s[1..], t, p);
      assert (s + t)[1..] == s[1..] + t;
    }
  }
}
